=== FILE: README.md ===
# Corpus manifest sorting, bucketing and merging (ctc-asr)

This project models the dataset-preparation core of a CTC speech recogniser in Dafny. It
covers two steps.

- **Merging the manifests** (`generate_dataset.py`). Each corpus loader produces manifest files
  with lines of the form `path/to/sample.wav transcription`. These files are merged into
  `train.txt`, `test.txt` and `dev.txt`. The training manifest is then sorted, and a metadata
  record is stored with the manifest sizes, the bucket boundaries and the total training length.
- **Sorting the training manifest** (`sort_txt_by_seq_len.py`). Every line is measured by the
  feature-vector length of its audio file, using a worker pool that returns results in any
  order. The lines are sorted by that length, and samples at or above `max_length` are dropped.
  Bucket boundaries are suggested by taking every `step`-th length. The kept lines are written
  back without their lengths.

Modules:

- `Results` and `Sequences`: the error type, `Result` and `Option`, plus generic sequence
  facts (permutations, sums, and the fact that sorted permutations are equal).
- `Arrival`: `imap_unordered` completion order. Each next finished task is chosen by a
  `picks` sequence.
- `Manifest`: `line.split(' ', 1)` and its inverse.
- `Samples`: measuring lines, stable sort by length, the length filter, and rendering lines back.
- `Buckets`: Python floor division and the boundary computation.
- `SortTxt`: the whole `sort_txt_by_seq_len` pipeline, plus reference definitions on the
  input lines.
- `GenerateDataset`: the file system as a map from paths to line lists, `_merge_txt_files`,
  `store_corpus_json` and `generate_dataset`.

Parameters stand in for what the code cannot see:

- The audio loader `load_sample` is the function parameter `length`, which maps the
  path in a line to its feature length.
- The pool's completion order is the parameter `picks`.
- The file system is a parameter of the merge step.

The model follows the code's behaviour at the edges:

- An empty manifest, or one with fewer kept samples than `num_buckets`, makes `step` zero,
  and `range(step, n, 0)` raises.
- The number of suggested boundaries is not bounded by `num_buckets - 1` (see
  `Buckets.BoundaryCountCanExceedBucketsMinusOne`).
- A negative `num_buckets` floors `step` to a negative number on a non-empty list, so no
  boundary is suggested. A zero `num_buckets` divides by zero.
- `max_length <= 0` disables the filter, as the `if max_length > 0` guard does.
- The docstring of `sort_txt_by_seq_len` (`python/dataset/sort_txt_by_seq_len.py:19`) says
  samples longer than `max_length` are discarded. The comprehension at line 54 keeps only
  samples strictly below it, so a sample of exactly `max_length` is dropped too. The model
  follows the comprehension.

## Model

| member | source | states |
|---|---|---|
| Manifest.SplitFirstSpace | python/dataset/sort_txt_by_seq_len.py:89 | a line splits exactly when it holds a space; the path has no space and path, space and transcription rebuild the line; otherwise the error names the line |
| Manifest.SplitJoinRoundTrip | python/dataset/sort_txt_by_seq_len.py:74-89 | joining a space-free path and a transcription with one space, then splitting at the first space, gives back both parts |
| Samples.Measure | python/dataset/sort_txt_by_seq_len.py:87-91 | a line with a space, once measured, carries the oracle length of its own space-free path and renders back to the same line |
| Samples.MeasureToLine | python/dataset/sort_txt_by_seq_len.py:74-91 | measuring a rendered sample reproduces the sample |
| Samples.FeatureLength | python/dataset/sort_txt_by_seq_len.py:87-91 | `_feature_length` succeeds exactly on lines with a space and then returns the measured sample |
| Samples.ScanLines | python/dataset/sort_txt_by_seq_len.py:40-46 | the pool succeeds exactly when every line has a space; a failure names a line of the input without one; on success every line is measured in arrival order |
| Samples.SortByLength | python/dataset/sort_txt_by_seq_len.py:49 | the result is sorted by length, has the input's size and holds only input samples |
| Samples.SortIsPermutation | python/dataset/sort_txt_by_seq_len.py:49 | sorting keeps every sample with its multiplicity |
| Samples.KeepShorter | python/dataset/sort_txt_by_seq_len.py:52-54 | with a positive bound, a sample is kept exactly when it is shorter; a non-positive bound keeps everything |
| Samples.BelowKeepsOrder | python/dataset/sort_txt_by_seq_len.py:54 | filtering a buffer sorted by length leaves it sorted by length |
| Samples.KeepShorterCounts | python/dataset/sort_txt_by_seq_len.py:52-55 | the kept and the removed samples together are the input, as multisets |
| Samples.ToLine | python/dataset/sort_txt_by_seq_len.py:74 | the written line is path, one space and transcription, and splitting it at the first space gives both back when the path has no space |
| Samples.Render | python/dataset/sort_txt_by_seq_len.py:74 | one written line per sample, in order, each splitting back into its sample's path and transcription |
| Samples.TotalLength | python/dataset/sort_txt_by_seq_len.py:71 | no sample is longer than the total, and the total is zero exactly when every sample has length zero |
| Samples.Lengths | python/dataset/sort_txt_by_seq_len.py:58 | the length list is sorted exactly when the samples are sorted by length |
| Arrival.Gather | python/dataset/sort_txt_by_seq_len.py:40-46 | the pool hands back one result per line; which order is chosen by `picks` (permutation and reachability are the two lemmas below) |
| Arrival.GatherIsPermutation | python/dataset/sort_txt_by_seq_len.py:40-46 | every completion order delivers each task's result exactly once |
| Arrival.EveryOrderIsReachable | python/dataset/sort_txt_by_seq_len.py:40-46 | every permutation of the results is some completion order, so the model assumes nothing about the pool's scheduling |
| Buckets.FloorDiv | python/dataset/sort_txt_by_seq_len.py:59 | Python's `//`: the quotient is the floor of the true quotient for both signs of the divisor |
| Buckets.FloorDivSign | python/dataset/sort_txt_by_seq_len.py:59-61 | `step` is zero exactly for an empty list or more buckets than lengths, and negative exactly for a negative bucket count on a non-empty list |
| Buckets.BucketBoundaries | python/dataset/sort_txt_by_seq_len.py:58-64 | raises on zero buckets or zero step; otherwise the boundaries are strictly increasing, are lengths from the list, and are exactly the stride candidates other than the largest |
| Buckets.BoundaryCountCanExceedBucketsMinusOne | python/dataset/sort_txt_by_seq_len.py:58-64 | eleven lengths in four buckets give four boundaries, more than `num_buckets - 1` |
| Buckets.NineSamplesThreeBuckets | python/dataset/sort_txt_by_seq_len.py:58-64 | lengths 1..9 in three buckets give the single boundary 4 |
| SortTxt.SortTxtBySeqLen | python/dataset/sort_txt_by_seq_len.py:17-84 | a run succeeds only on a manifest whose every line has a space; written plus removed lines account for every input line; nothing is removed when filtering is off |
| SortTxt.ShortLines | python/dataset/sort_txt_by_seq_len.py:52-54 | the reference filter on raw lines keeps a line exactly when its measured length passes |
| SortTxt.SortTxtFailsExactlyWhen | python/dataset/sort_txt_by_seq_len.py:40-64 | the run fails exactly when a line lacks a space, `num_buckets` is zero, or fewer lines pass the filter than buckets (none included), each with its own error |
| SortTxt.SortTxtKeepsShortLines | python/dataset/sort_txt_by_seq_len.py:52-55 | the written lines are, up to order, exactly the input lines that pass the filter, and `removed` counts the rest |
| SortTxt.SortTxtSortedAndBounded | python/dataset/sort_txt_by_seq_len.py:49-54 | re-measuring the written lines finds them sorted by length and, with filtering on, each below `max_length` |
| SortTxt.SortTxtTotalLength | python/dataset/sort_txt_by_seq_len.py:71 | the total is the summed length of exactly the input lines that pass the filter |
| SortTxt.SortTxtBoundaries | python/dataset/sort_txt_by_seq_len.py:58-64 | the returned boundaries are those computed from the lengths of the written lines |
| SortTxt.ArrivalOrderIrrelevant | python/dataset/sort_txt_by_seq_len.py:40-49 | two completion orders agree on success, on the written lines up to order, on their length profile, and on boundaries, total and removed count |
| SortTxt.SortTxtIdempotent | python/dataset/sort_txt_by_seq_len.py:17-84 | sorting the output again succeeds, removes nothing and reproduces the same lines up to order, the same lengths, boundaries and total |
| GenerateDataset.ReadLines | python/dataset/generate_dataset.py:110-111 | a file reads exactly when it exists and the path is not empty; otherwise the error names the path |
| GenerateDataset.FirstUnreadable | python/dataset/generate_dataset.py:109-111 | the index of the first file that cannot be opened, with every earlier file readable |
| GenerateDataset.TargetFile | python/dataset/generate_dataset.py:114 | the target path is the directory prefix followed by `<target>.txt` |
| GenerateDataset.TargetFilesDistinct | python/dataset/generate_dataset.py:114 | `train.txt`, `test.txt` and `dev.txt` are different paths in any directory |
| GenerateDataset.ConcatAppend | python/dataset/generate_dataset.py:109-111 | merging two lists of files is merging the first, then the second |
| GenerateDataset.ConcatAfterWrite | python/dataset/generate_dataset.py:115-116 | writing one file leaves the merge of other files unchanged |
| GenerateDataset.MergeTxtFiles | python/dataset/generate_dataset.py:93-119 | an invalid target fails before any read; otherwise the merge succeeds exactly when every file opens, the error names the first file that does not, and the target file then holds all lines in order and their count is returned |
| GenerateDataset.StoreCorpusJson | python/dataset/generate_dataset.py:122-143 | the record holds exactly the five fields, and reading it back gives each argument under its own name |
| GenerateDataset.TrainFilesAsWritten | python/dataset/generate_dataset.py:67-76 | the source's train list has five slots: the four corpus train sets and TIMIT's, or the empty path when TIMIT is not used |
| GenerateDataset.TrainFiles | python/dataset/generate_dataset.py:67-76 | the corrected train list holds the four corpus train sets, plus TIMIT exactly when it is used; it is the source's list with the empty slot dropped |
| GenerateDataset.TestFiles | python/dataset/generate_dataset.py:79-80 | only the Common Voice and LibriSpeech test sets are merged into `test.txt` |
| GenerateDataset.DevFiles | python/dataset/generate_dataset.py:83-84 | only the LibriSpeech dev set is merged into `dev.txt` |
| GenerateDataset.StoredTrainSizesDiffer | python/dataset/generate_dataset.py:87-90 | with the default settings, a merged manifest of at least 64 well-formed lines that all measure 2 sorts successfully, and its total length is twice its line count, so the stored train size depends on which of the two the run stores |
| GenerateDataset.Written | python/dataset/generate_dataset.py:114-116 | writing a manifest adds or overwrites exactly the target file, which then holds the merge, and leaves every other file as it was |
| GenerateDataset.MergeAll | python/dataset/generate_dataset.py:74-84 | the file system left behind in every case: unchanged when a train file is missing, with `train.txt` written when the test merge fails, with `test.txt` too when the dev merge fails, and with all three on success; nothing outside the three manifests changes; the counts are those of the source files unless a source is itself a merged manifest; failures name a source file |
| GenerateDataset.GenerateDatasetAsWritten | python/dataset/generate_dataset.py:67-90 | without TIMIT the run always fails before writing anything, on the empty path once the other train files open; nothing outside the three manifests changes; on success the stored train size equals the stored train length |
| GenerateDataset.GenerateDataset | python/dataset/generate_dataset.py:67-90 | corrected run: a missing train file leaves the file system unchanged; once the train merge has run, `train.txt` keeps the unsorted merge if a later step raises and holds the sorted lines on success; the stored train size is the merged line count, and length and boundaries are those of the sort; nothing outside the three manifests changes; it succeeds whenever every source opens and the sort succeeds |

## Left out

- The worker pool, the lock and the progress bar: only the completion order matters for the result, and it is the parameter `picks`.
- `load_sample` and `CORPUS_DIR`: the audio feature length is the oracle parameter `length`. The model assumes the oracle always succeeds.
- `_plot_sequence_lengths` and every `print`: they are display only.
- File deletion and rewriting in `sort_txt_by_seq_len`: the sorted lines are returned, and `generate_dataset` writes them back into the file-system map.
- SortTxt.SortTxtTotalLength: the total is the integer sum of lengths. The source divides it by the float `0.1`, which is left out because floating point is not modelled.
- Line terminators: files are lists of lines. The model assumes each line keeps its own newline. Then `readlines`/`writelines` never glue the last line of one file to the first of the next in the merge. Nor, after `sort_txt_by_seq_len` reorders the lines (sort_txt_by_seq_len.py:49, 74, 79), is a last line without a newline glued to whichever line follows it. `SortTxt.SortTxtKeepsShortLines` states that each line is written back unaltered, and that depends on this assumption.
- The corpus loaders and `keep_archives`: downloads and extraction are outside this model. Their output paths are the `LoaderOutputs` record.
- The metadata file path `JSON` and `json.dump` formatting: the document is modelled as a map from field names to values.
- Samples.SortByLength: the model's insertion sort is stable, like `sorted`. No contract states stability, because the arrival order that ties would keep is arbitrary anyway.
- The `__main__` blocks: they only call the two functions with default arguments.

## Findings

| source | as written | input that shows it | evidently intended | confidence | as-written member | corrected member |
|---|---|---|---|---|---|---|
| python/dataset/generate_dataset.py:87-90 | `train_len` from the merge is rebound to the sort's total length, then passed as both `train_size` and `train_length` | a merged train manifest of 64 well-formed lines whose audio each measures 2 sorts with `step` 1 and stores `train_size` 1280.0 (the total 128 divided by 0.1), not 64; in the model, `GenerateDataset.StoredTrainSizesDiffer` shows the run succeeds and its total is 128, which the as-written member stores as the train size and the corrected member does not | `train_size` is the number of merged training lines | high; not executed | GenerateDataset.GenerateDatasetAsWritten | GenerateDataset.GenerateDataset |
| python/dataset/generate_dataset.py:67-76 | with `use_timit=False`, `timit_train` is `''` and stays in the train list | `generate_dataset(use_timit=False)`: `open('')` raises in `_merge_txt_files`, so the run fails every time | TIMIT is left out of the train merge when it is not used | high; not executed | GenerateDataset.GenerateDatasetAsWritten | GenerateDataset.GenerateDataset |

=== FILE: arrival.dfy ===
/** The worker pool's `imap_unordered`: every line is processed exactly once, and the
    results come back in an order the caller does not control. The order is modelled
    by a sequence of picks: at each step, the next pick (taken modulo the number of
    tasks still outstanding) names which outstanding task finishes next. */
module Arrival {

  import Sequences

  function RemoveAt<T>(s: seq<T>, i: nat): (r: seq<T>)
    requires i < |s|
    ensures |r| == |s| - 1
  {
    s[..i] + s[i+1..]
  }

  /** Index of the pool job that finishes next when `outstanding` jobs remain. */
  function NextPick(picks: seq<nat>, outstanding: nat): (i: nat)
    requires outstanding > 0
    ensures i < outstanding
  {
    (if |picks| == 0 then 0 else picks[0]) % outstanding
  }

  lemma ModOfSmaller(i: nat, n: nat)
    requires i < n
    ensures i % n == i
  {
  }

  function Later(picks: seq<nat>): seq<nat> {
    if |picks| == 0 then [] else picks[1..]
  }

  /** The results of `pool`, in the completion order chosen by `picks`. */
  function Gather<T>(pool: seq<T>, picks: seq<nat>): (r: seq<T>)
    ensures |r| == |pool|
    decreases |pool|
  {
    if |pool| == 0 then []
    else
      var i := NextPick(picks, |pool|);
      [pool[i]] + Gather(RemoveAt(pool, i), Later(picks))
  }

  /** Whatever the completion order, every task's result is collected exactly once. */
  lemma {:induction false} GatherIsPermutation<T>(pool: seq<T>, picks: seq<nat>)
    ensures multiset(Gather(pool, picks)) == multiset(pool)
    decreases |pool|
  {
    if |pool| > 0 {
      var i := NextPick(picks, |pool|);
      GatherIsPermutation(RemoveAt(pool, i), Later(picks));
      assert pool == pool[..i] + [pool[i]] + pool[i+1..];
    }
  }

  /** Conversely, every reordering of the pool is some completion order. */
  lemma {:induction false} EveryOrderIsReachable<T>(pool: seq<T>, order: seq<T>)
    requires multiset(order) == multiset(pool)
    ensures exists picks :: Gather(pool, picks) == order
  {
    if |pool| == 0 {
      assert |multiset(order)| == 0;
      var picks: seq<nat> := [];
      assert Gather(pool, picks) == order;
    } else {
      assert |order| == |multiset(pool)| == |pool|;
      assert order[0] in multiset(pool);
      var i :| 0 <= i < |pool| && pool[i] == order[0];
      Sequences.RemoveMatching(order, pool, i);
      EveryOrderIsReachable(RemoveAt(pool, i), order[1..]);
      var later :| Gather(RemoveAt(pool, i), later) == order[1..];
      FirstPickThenLater(pool, order, i, later);
      assert Gather(pool, [i] + later) == order;
    }
  }

  lemma FirstPickThenLater<T>(pool: seq<T>, order: seq<T>, i: nat, later: seq<nat>)
    requires i < |pool| && |order| > 0 && pool[i] == order[0]
    requires Gather(RemoveAt(pool, i), later) == order[1..]
    ensures Gather(pool, [i] + later) == order
  {
    GatherFirst(pool, i, later);
    assert order == [order[0]] + order[1..];
  }

  lemma GatherFirst<T>(pool: seq<T>, i: nat, later: seq<nat>)
    requires i < |pool|
    ensures Gather(pool, [i] + later) == [pool[i]] + Gather(RemoveAt(pool, i), later)
  {
    var picks := [i] + later;
    assert picks[0] == i && picks[1..] == later;
    assert NextPick(picks, |pool|) == i by {
      ModOfSmaller(i, |pool|);
    }
    assert Later(picks) == later;
  }
}

=== FILE: buckets.dfy ===
/** The bucket boundaries `sort_txt_by_seq_len` suggests: every `step`-th length of the
    kept samples, with `step = len(lengths) // num_buckets`, collected into a set,
    sorted, and with the largest value dropped. */
module Buckets {
  import opened Results
  import opened Sequences

  /** Python's `n // d` for a non-negative `n`: the quotient rounded toward negative infinity
      (Dafny's own `/` rounds differently when `d` is negative). */
  function FloorDiv(n: nat, d: int): (q: int)
    requires d != 0
    ensures d > 0 ==> q * d <= n < q * d + d
    ensures d < 0 ==> q * d + d < n <= q * d
  {
    if d > 0 then n / d else -((n - d - 1) / -d)
  }

  /** The quotient is zero exactly when the numerator is zero or smaller than a positive divisor,
      and negative exactly when a positive numerator meets a negative divisor. */
  lemma FloorDivSign(n: nat, d: int)
    requires d != 0
    ensures FloorDiv(n, d) == 0 <==> n == 0 || n < d
    ensures FloorDiv(n, d) < 0 <==> d < 0 && n > 0
  {
    var q := FloorDiv(n, d);
    if d > 0 {
      if q >= 1 {
        assert q * d >= d;
      }
    } else {
      if q < 0 {
        assert (q + 1) * d >= 0;
        assert q * d + d == (q + 1) * d;
      }
    }
  }

  function StrideIndex(k: nat, step: nat): nat {
    k * step
  }

  lemma StrideMonotone(k: nat, j: nat, step: nat)
    requires k <= j
    ensures StrideIndex(k, step) <= StrideIndex(j, step)
  {
    assert StrideIndex(j, step) == StrideIndex(k, step) + (j - k) * step;
  }

  /** The values `lengths[i]` for `i` in `range(k * step, len(lengths), step)`. */
  function CandidatesFrom(lengths: seq<nat>, step: nat, k: nat): (c: set<nat>)
    requires step > 0
    ensures forall v :: v in c <==>
      exists j :: k <= j && StrideIndex(j, step) < |lengths| && lengths[StrideIndex(j, step)] == v
    decreases if StrideIndex(k, step) < |lengths| then |lengths| - StrideIndex(k, step) else 0
  {
    if StrideIndex(k, step) >= |lengths| then
      assert forall j :: k <= j ==> StrideIndex(k, step) <= StrideIndex(j, step) by {
        forall j | k <= j {
          StrideMonotone(k, j, step);
        }
      }
      {}
    else
      assert StrideIndex(k + 1, step) == StrideIndex(k, step) + step;
      {lengths[StrideIndex(k, step)]} + CandidatesFrom(lengths, step, k + 1)
  }

  /** The set `buckets` after `for i in range(step, len(lengths), step): buckets.add(lengths[i])`. */
  function Candidates(lengths: seq<nat>, step: nat): (c: set<nat>)
    requires step > 0
    ensures forall v :: v in c ==> v in lengths
  {
    CandidatesFrom(lengths, step, 1)
  }

  lemma HasLeast(s: set<nat>)
    requires s != {}
    ensures exists m :: m in s && forall v :: v in s ==> m <= v
  {
    var x :| x in s;
    if s != {x} {
      HasLeast(s - {x});
      var m :| m in s - {x} && forall v :: v in s - {x} ==> m <= v;
      var least := if x < m then x else m;
      forall v | v in s
        ensures least <= v
      {
        if v != x {
          assert v in s - {x};
        }
      }
      assert least in s;
    } else {
      assert forall v :: v in s ==> x <= v;
    }
  }

  function Least(s: set<nat>): (m: nat)
    requires s != {}
    ensures m in s && forall v :: v in s ==> m <= v
  {
    HasLeast(s);
    var m :| m in s && forall v :: v in s ==> m <= v;
    m
  }

  /** `buckets = list(buckets); buckets.sort()`. */
  function SortSet(s: set<nat>): (r: seq<nat>)
    ensures StrictlyIncreasing(r)
    ensures |r| == |s|
    ensures forall v :: v in r <==> v in s
    decreases |s|
  {
    if s == {} then []
    else
      var m := Least(s);
      var rest := SortSet(s - {m});
      assert forall j :: 0 <= j < |rest| ==> rest[j] in rest;
      [m] + rest
  }

  /** `buckets[:-1]`. */
  function DropLast(s: seq<nat>): (r: seq<nat>)
    ensures |r| == if |s| == 0 then 0 else |s| - 1
  {
    if |s| == 0 then [] else s[..|s| - 1]
  }

  /** Dropping the last value of an increasing listing of `c` leaves exactly the values of `c`
      that some other value of `c` exceeds. */
  lemma DropLastOfIncreasing(sorted: seq<nat>, c: set<nat>)
    requires StrictlyIncreasing(sorted)
    requires forall v :: v in sorted <==> v in c
    ensures StrictlyIncreasing(DropLast(sorted))
    ensures forall v :: v in DropLast(sorted) <==> v in c && exists w :: w in c && v < w
  {
    var r := DropLast(sorted);
    forall v | v in r
      ensures v in c && exists w :: w in c && v < w
    {
      var i :| 0 <= i < |r| && r[i] == v;
      assert sorted[|sorted| - 1] in c;
    }
    forall v | v in c && (exists w :: w in c && v < w)
      ensures v in r
    {
      var w :| w in c && v < w;
      var i :| 0 <= i < |sorted| && sorted[i] == v;
      var j :| 0 <= j < |sorted| && sorted[j] == w;
      assert i < j;
      assert r[i] == v;
    }
  }

  /** The boundary computation, with the two ways it raises: `num_buckets == 0` divides by
      zero, and a zero `step` is refused by `range`. A negative `num_buckets` makes `step`
      negative, so the range is empty and no boundary is suggested. */
  function BucketBoundaries(lengths: seq<nat>, numBuckets: int): (r: Result<seq<nat>>)
    ensures numBuckets == 0 ==> r == Failure(ZeroBuckets)
    ensures numBuckets != 0 ==> (r.Failure? <==> |lengths| == 0 || |lengths| < numBuckets)
    ensures numBuckets != 0 && r.Failure? ==> r.error == ZeroStep
    ensures r.Success? ==> StrictlyIncreasing(r.value)
    ensures r.Success? ==> forall v :: v in r.value ==> v in lengths
    ensures r.Success? && numBuckets < 0 ==> r.value == []
    ensures r.Success? && numBuckets > 0 ==>
      var c := Candidates(lengths, FloorDiv(|lengths|, numBuckets));
      && (forall v :: v in r.value <==> v in c && exists w :: w in c && v < w)
      && |r.value| == if c == {} then 0 else |c| - 1
  {
    if numBuckets == 0 then Failure(ZeroBuckets)
    else
      var step := FloorDiv(|lengths|, numBuckets);
      FloorDivSign(|lengths|, numBuckets);
      if step == 0 then Failure(ZeroStep)
      else if step < 0 then Success([])
      else
        var c := Candidates(lengths, step);
        var sorted := SortSet(c);
        DropLastOfIncreasing(sorted, c);
        Success(DropLast(sorted))
  }

  const Eleven: seq<nat> := [0, 1, 2, 3, 4, 5, 6, 7, 8, 9, 10]

  lemma ElevenCandidates()
    ensures Candidates(Eleven, 2) == {2, 4, 6, 8, 10}
  {
    var c := Candidates(Eleven, 2);
    forall v | v in c
      ensures v in {2, 4, 6, 8, 10}
    {
      var j :| 1 <= j && StrideIndex(j, 2) < |Eleven| && Eleven[StrideIndex(j, 2)] == v;
      assert j <= 5;
    }
    assert Eleven[StrideIndex(1, 2)] == 2 && Eleven[StrideIndex(2, 2)] == 4 && Eleven[StrideIndex(3, 2)] == 6;
    assert Eleven[StrideIndex(4, 2)] == 8 && Eleven[StrideIndex(5, 2)] == 10;
  }

  /** The count is not bounded by `num_buckets - 1`: eleven kept lengths in four buckets
      give a stride of 2, candidate indices 2, 4, 6, 8, 10, and four boundaries. */
  lemma BoundaryCountCanExceedBucketsMinusOne()
    ensures var r := BucketBoundaries(Eleven, 4);
            r.Success? && |r.value| == 4 && |r.value| > 4 - 1
  {
    assert FloorDiv(|Eleven|, 4) == 2;
    ElevenCandidates();
    FiveEvens();
  }

  lemma FiveEvens()
    ensures |{2, 4, 6, 8, 10}| == 5
  {
    assert {2, 4, 6, 8, 10} == {2, 4, 6, 8} + {10};
    assert {2, 4, 6, 8} == {2, 4, 6} + {8};
    assert {2, 4, 6} == {2, 4} + {6};
  }

  const Nine: seq<nat> := [1, 2, 3, 4, 5, 6, 7, 8, 9]

  lemma NineCandidates()
    ensures Candidates(Nine, 3) == {4, 7}
  {
    var c := Candidates(Nine, 3);
    forall v | v in c
      ensures v in {4, 7}
    {
      var j :| 1 <= j && StrideIndex(j, 3) < |Nine| && Nine[StrideIndex(j, 3)] == v;
      assert j <= 2;
    }
    assert Nine[StrideIndex(1, 3)] == 4 && Nine[StrideIndex(2, 3)] == 7;
  }

  /** Nine kept lengths 1..9 in three buckets: stride 3, candidates at indices 3 and 6,
      and the single boundary 4 once the largest candidate is dropped. */
  lemma NineSamplesThreeBuckets()
    ensures BucketBoundaries(Nine, 3) == Success([4])
  {
    assert FloorDiv(|Nine|, 3) == 3;
    NineCandidates();
    var r := BucketBoundaries(Nine, 3).value;
    assert 4 in r;
    assert |r| == 1;
  }
}

=== FILE: generate_dataset.dfy ===
/** `generate_dataset.py`: merging the per-corpus manifests into `train.txt`, `test.txt`
    and `dev.txt`, sorting the training manifest, and recording the corpus metadata.
    Files are modelled as the line lists `readlines()` returns. */
module GenerateDataset {
  import opened Results
  import opened Sequences
  import opened SortTxt
  import Samples

  type FileSystem = map<string, seq<string>>

  const Targets: set<string> := {"test", "dev", "train"}

  /** A path `open(path, 'r')` succeeds on; the empty path never names a file. */
  predicate Readable(fs: FileSystem, path: string) {
    path != "" && path in fs
  }

  predicate AllReadable(fs: FileSystem, files: seq<string>) {
    forall i :: 0 <= i < |files| ==> Readable(fs, files[i])
  }

  /** The position of the first file in `files` that cannot be opened. */
  function FirstUnreadable(fs: FileSystem, files: seq<string>): (k: nat)
    requires !AllReadable(fs, files)
    ensures k < |files| && !Readable(fs, files[k]) && AllReadable(fs, files[..k])
  {
    if !Readable(fs, files[0]) then 0
    else
      var k := 1 + FirstUnreadable(fs, files[1..]);
      assert forall i :: 0 < i < k ==> files[..k][i] == files[1..][..k - 1][i - 1];
      k
  }

  /** Only the first unreadable file is unreadable with every file before it readable. */
  lemma FirstUnreadableIsUnique(fs: FileSystem, files: seq<string>, i: nat)
    requires i < |files| && !Readable(fs, files[i]) && AllReadable(fs, files[..i])
    ensures !AllReadable(fs, files) && FirstUnreadable(fs, files) == i
  {
  }

  /** `open(path, 'r').readlines()`. */
  function ReadLines(fs: FileSystem, path: string): (r: Result<seq<string>>)
    ensures r.Success? <==> Readable(fs, path)
    ensures r.Success? ==> r.value == fs[path]
    ensures r.Failure? ==> r.error == FileNotFound(path)
  {
    if Readable(fs, path) then Success(fs[path]) else Failure(FileNotFound(path))
  }

  /** The part of a joined path in front of the name: the directory, with a `/` added
      unless it is empty or already ends in one. */
  function DirectoryPrefix(directory: string): (p: string)
    ensures p == directory || p == directory + "/"
  {
    if |directory| == 0 || directory[|directory| - 1] == '/' then directory else directory + "/"
  }

  /** `os.path.join(directory, name)` for a relative `name`. */
  function PathJoin(directory: string, name: string): (p: string)
    ensures |p| == |DirectoryPrefix(directory)| + |name|
    ensures p[..|p| - |name|] == DirectoryPrefix(directory) && p[|p| - |name|..] == name
  {
    DirectoryPrefix(directory) + name
  }

  /** `os.path.join(TXT_DIR, '{}.txt'.format(target))`: the directory, then the target
      name with its `.txt` extension as the last component. */
  function TargetFile(txtDir: string, target: string): (p: string)
    ensures |p| == |DirectoryPrefix(txtDir)| + |target| + 4
    ensures p[..|DirectoryPrefix(txtDir)|] == DirectoryPrefix(txtDir)
    ensures p[|DirectoryPrefix(txtDir)|..] == target + ".txt"
  {
    PathJoin(txtDir, target + ".txt")
  }

  /** The three merged manifests never overwrite one another. */
  lemma TargetFilesDistinct(txtDir: string)
    ensures TargetFile(txtDir, "train") != TargetFile(txtDir, "test")
    ensures TargetFile(txtDir, "train") != TargetFile(txtDir, "dev")
    ensures TargetFile(txtDir, "test") != TargetFile(txtDir, "dev")
  {
    var base := |DirectoryPrefix(txtDir)|;
    assert |TargetFile(txtDir, "train")| == base + 9;
    assert |TargetFile(txtDir, "test")| == base + 8;
    assert |TargetFile(txtDir, "dev")| == base + 7;
  }

  /** The lines of `files`, concatenated in the order the files are given. */
  function Concat(fs: FileSystem, files: seq<string>): seq<string>
    requires AllReadable(fs, files)
  {
    if |files| == 0 then [] else Concat(fs, files[..|files| - 1]) + fs[files[|files| - 1]]
  }

  /** The number of lines in `files` together. */
  function LineCount(fs: FileSystem, files: seq<string>): nat
    requires AllReadable(fs, files)
  {
    if |files| == 0 then 0 else LineCount(fs, files[..|files| - 1]) + |fs[files[|files| - 1]]|
  }

  lemma {:induction false} ConcatLength(fs: FileSystem, files: seq<string>)
    requires AllReadable(fs, files)
    ensures |Concat(fs, files)| == LineCount(fs, files)
  {
    if |files| > 0 {
      ConcatLength(fs, files[..|files| - 1]);
    }
  }

  /** Merging two lists of files gives the merge of the first followed by that of the second. */
  lemma {:induction false} ConcatAppend(fs: FileSystem, front: seq<string>, back: seq<string>)
    requires AllReadable(fs, front) && AllReadable(fs, back)
    ensures AllReadable(fs, front + back)
    ensures Concat(fs, front + back) == Concat(fs, front) + Concat(fs, back)
  {
    AllReadableAppend(fs, front, back);
    if |back| > 0 {
      var init := back[..|back| - 1];
      assert (front + back)[..|front + back| - 1] == front + init;
      assert (front + back)[|front + back| - 1] == back[|back| - 1];
      AllReadableAppend(fs, front, init);
      ConcatAppend(fs, front, init);
    } else {
      assert front + back == front;
    }
  }

  lemma AllReadableAppend(fs: FileSystem, front: seq<string>, back: seq<string>)
    requires AllReadable(fs, front) && AllReadable(fs, back)
    ensures AllReadable(fs, front + back)
    ensures |back| > 0 ==> AllReadable(fs, back[..|back| - 1])
  {
  }

  /** Writing a file that is not one of `files` changes nothing about their merge. */
  lemma {:induction false} ConcatAfterWrite(fs: FileSystem, path: string, lines: seq<string>, files: seq<string>)
    requires AllReadable(fs, files) && path !in files
    ensures AllReadable(fs[path := lines], files)
    ensures Concat(fs[path := lines], files) == Concat(fs, files)
    ensures LineCount(fs[path := lines], files) == LineCount(fs, files)
  {
    if |files| > 0 {
      ConcatAfterWrite(fs, path, lines, files[..|files| - 1]);
    }
  }

  /** Writing a file keeps every other file readable. */
  lemma ConcatAfterWriteReadable(fs: FileSystem, path: string, lines: seq<string>, files: seq<string>)
    requires AllReadable(fs, files)
    ensures AllReadable(fs[path := lines], files)
  {
  }

  /** What `_merge_txt_files` leaves behind: the file system with the target written, the
      target's path, and the number of lines written. */
  datatype Merged = Merged(fs: FileSystem, path: string, count: nat)

  /** `_merge_txt_files(txt_files, target)`: the target name is checked before any file is
      read, every file is read in order (the first unreadable one raises), and the target
      file is overwritten with the concatenation. */
  method MergeTxtFiles(fs: FileSystem, txtFiles: seq<string>, target: string, txtDir: string)
    returns (r: Result<Merged>)
    ensures target !in Targets ==> r == Failure(InvalidTarget(target))
    ensures target in Targets ==> (r.Success? <==> AllReadable(fs, txtFiles))
    ensures target in Targets && r.Failure? ==>
      !AllReadable(fs, txtFiles) && r.error == FileNotFound(txtFiles[FirstUnreadable(fs, txtFiles)])
    ensures r.Success? ==>
      && AllReadable(fs, txtFiles)
      && r.value.path == TargetFile(txtDir, target)
      && r.value.fs == fs[r.value.path := Concat(fs, txtFiles)]
      && r.value.count == LineCount(fs, txtFiles)
  {
    if target !in Targets {
      return Failure(InvalidTarget(target));
    }
    var buffer: seq<string> := [];
    var i := 0;
    while i < |txtFiles|
      invariant 0 <= i <= |txtFiles|
      invariant AllReadable(fs, txtFiles[..i])
      invariant buffer == Concat(fs, txtFiles[..i])
    {
      var read := ReadLines(fs, txtFiles[i]);
      if read.Failure? {
        FirstUnreadableIsUnique(fs, txtFiles, i);
        return Failure(read.error);
      }
      assert txtFiles[..i + 1][..i] == txtFiles[..i];
      buffer := buffer + read.value;
      i := i + 1;
    }
    assert txtFiles[..i] == txtFiles;
    ConcatLength(fs, txtFiles);
    var path := TargetFile(txtDir, target);
    return Success(Merged(fs[path := buffer], path, |buffer|));
  }

  /** A value in the metadata file. */
  datatype JsonValue = Number(n: int) | Numbers(items: seq<nat>)

  type CorpusJson = map<string, JsonValue>

  const FieldNames: set<string> := {"train_size", "test_size", "dev_size", "boundaries", "train_length"}

  datatype CorpusMetadata = CorpusMetadata(trainSize: int, testSize: int, devSize: int,
                                           boundaries: seq<nat>, trainLength: int)

  /** Reading the five fields back from a metadata document; `None` when one is missing or
      of the wrong kind. */
  function ReadCorpusJson(doc: CorpusJson): Option<CorpusMetadata> {
    if && "train_size" in doc && doc["train_size"].Number?
       && "test_size" in doc && doc["test_size"].Number?
       && "dev_size" in doc && doc["dev_size"].Number?
       && "boundaries" in doc && doc["boundaries"].Numbers?
       && "train_length" in doc && doc["train_length"].Number?
    then
      Some(CorpusMetadata(doc["train_size"].n, doc["test_size"].n, doc["dev_size"].n,
                          doc["boundaries"].items, doc["train_length"].n))
    else None
  }

  /** `store_corpus_json`: the record holds exactly the five fields, and each reads back
      as the argument of the same name. */
  function StoreCorpusJson(trainSize: int, testSize: int, devSize: int, boundaries: seq<nat>,
                           trainLength: int): (doc: CorpusJson)
    ensures doc.Keys == FieldNames
    ensures ReadCorpusJson(doc) == Some(CorpusMetadata(trainSize, testSize, devSize, boundaries, trainLength))
  {
    map["train_size" := Number(trainSize), "test_size" := Number(testSize), "dev_size" := Number(devSize),
        "boundaries" := Numbers(boundaries), "train_length" := Number(trainLength)]
  }

  /** The manifest paths the corpus loaders return. */
  datatype LoaderOutputs = LoaderOutputs(
    cvTrain: string, cvTest: string, cvDev: string,
    lsTrain: string, lsTest: string, lsDev: string,
    tatoebaTrain: string,
    tedTrain: string, tedTest: string, tedDev: string,
    timitTrain: string, timitTest: string)

  /** The train list as the source builds it: five slots, the last holding the empty path
      when TIMIT is not used. */
  function TrainFilesAsWritten(o: LoaderOutputs, useTimit: bool): (r: seq<string>)
    ensures |r| == 5
    ensures forall p :: p in r <==>
      p in {o.cvTrain, o.lsTrain, o.tatoebaTrain, o.tedTrain} || p == (if useTimit then o.timitTrain else "")
  {
    [o.cvTrain, o.lsTrain, o.tatoebaTrain, o.tedTrain, if useTimit then o.timitTrain else ""]
  }

  /** Common Voice, LibriSpeech, Tatoeba, TEDLIUM, then TIMIT when it is used. It is the
      source's list with the empty slot dropped. */
  function TrainFiles(o: LoaderOutputs, useTimit: bool): (r: seq<string>)
    ensures forall p :: p in r <==>
      p in {o.cvTrain, o.lsTrain, o.tatoebaTrain, o.tedTrain} || (useTimit && p == o.timitTrain)
    ensures useTimit ==> r == TrainFilesAsWritten(o, true)
    ensures !useTimit ==> r + [""] == TrainFilesAsWritten(o, false)
  {
    [o.cvTrain, o.lsTrain, o.tatoebaTrain, o.tedTrain] + (if useTimit then [o.timitTrain] else [])
  }

  /** Only Common Voice and LibriSpeech test sets are merged; TEDLIUM's and TIMIT's are not. */
  function TestFiles(o: LoaderOutputs): (r: seq<string>)
    ensures forall p :: p in r <==> p == o.cvTest || p == o.lsTest
  {
    [o.cvTest, o.lsTest]
  }

  /** Only the LibriSpeech dev set is merged; Common Voice's and TEDLIUM's are not. */
  function DevFiles(o: LoaderOutputs): (r: seq<string>)
    ensures forall p :: p in r <==> p == o.lsDev
  {
    [o.lsDev]
  }

  /** Without TIMIT the source's train list holds the empty path, so its merge always fails. */
  lemma AsWrittenTrainListUnreadableWithoutTimit(fs: FileSystem, o: LoaderOutputs)
    ensures !AllReadable(fs, TrainFilesAsWritten(o, false))
  {
    assert TrainFilesAsWritten(o, false)[4] == "";
  }

  /** With the default settings, a merged manifest of at least 64 lines whose audio all
      measures 2 sorts successfully, and its total length is twice its line count. The
      as-written run stores that total as `train_size`; the corrected run stores the count. */
  lemma {:induction false} StoredTrainSizesDiffer(lines: seq<string>, length: string -> nat, picks: seq<nat>)
    requires forall i :: 0 <= i < |lines| ==> LineLength(lines[i], length) == 2
    ensures var report := SortTxtBySeqLen(lines, length, picks, DefaultNumBuckets, DefaultMaxLength);
            && (Samples.WellFormed(lines) && |lines| >= DefaultNumBuckets ==> report.Success?)
            && (report.Success? ==> report.value.totalLength == 2 * |lines| != |lines|)
  {
    ShortLinesWhenAllPass(lines, length, DefaultMaxLength);
    SortTxtFailsExactlyWhen(lines, length, picks, DefaultNumBuckets, DefaultMaxLength);
    SortTxtTotalLength(lines, length, picks, DefaultNumBuckets, DefaultMaxLength);
    SumConstant(LineLengths(lines, length), 2);
  }

  /** The file system once `target` has been overwritten with the merge of `files`. */
  function Written(fs: FileSystem, files: seq<string>, target: string, txtDir: string): (after: FileSystem)
    requires AllReadable(fs, files)
    ensures after.Keys == fs.Keys + {TargetFile(txtDir, target)}
    ensures after[TargetFile(txtDir, target)] == Concat(fs, files)
    ensures forall p :: p in fs && p != TargetFile(txtDir, target) ==> after[p] == fs[p]
  {
    fs[TargetFile(txtDir, target) := Concat(fs, files)]
  }

  /** The three manifests a run may write. */
  function TargetPaths(txtDir: string): set<string> {
    {TargetFile(txtDir, "train"), TargetFile(txtDir, "test"), TargetFile(txtDir, "dev")}
  }

  /** Nothing but the three manifests is created or changed. */
  predicate OnlyTargetsWritten(fs: FileSystem, after: FileSystem, txtDir: string) {
    && (forall p :: p in after ==> p in fs || p in TargetPaths(txtDir))
    && (forall p :: p in fs && p !in TargetPaths(txtDir) ==> p in after && after[p] == fs[p])
  }

  /** The line count of each merged manifest. */
  datatype Manifests = Manifests(trainCount: nat, testCount: nat, devCount: nat)

  /** No source list names a manifest merged before it. */
  predicate SourcesApart(txtDir: string, test: seq<string>, dev: seq<string>) {
    && TargetFile(txtDir, "train") !in test + dev
    && TargetFile(txtDir, "test") !in dev
  }

  /** The three `_merge_txt_files` calls, train first, then test, then dev. `after` is the
      file system the calls leave behind, also when one of them raises: every merge that
      completed before the failing one has written its manifest. */
  method MergeAll(fs: FileSystem, train: seq<string>, test: seq<string>, dev: seq<string>, txtDir: string)
    returns (r: Result<Manifests>, after: FileSystem)
    ensures !AllReadable(fs, train) ==>
      after == fs && r == Failure(FileNotFound(train[FirstUnreadable(fs, train)]))
    ensures AllReadable(fs, train) ==>
      var fs1 := Written(fs, train, "train", txtDir);
      && (!AllReadable(fs1, test) ==> after == fs1 && r.Failure?)
      && (AllReadable(fs1, test) ==>
            var fs2 := Written(fs1, test, "test", txtDir);
            && (!AllReadable(fs2, dev) ==> after == fs2 && r.Failure?)
            && (AllReadable(fs2, dev) ==> after == Written(fs2, dev, "dev", txtDir) && r.Success?))
    ensures AllReadable(fs, train) ==>
      && TargetFile(txtDir, "train") in after
      && after[TargetFile(txtDir, "train")] == Concat(fs, train)
    ensures OnlyTargetsWritten(fs, after, txtDir)
    ensures r.Success? ==> AllReadable(fs, train) && r.value.trainCount == LineCount(fs, train)
    ensures r.Success? && SourcesApart(txtDir, test, dev) ==>
      && AllReadable(fs, test) && AllReadable(fs, dev)
      && r.value.testCount == LineCount(fs, test)
      && r.value.devCount == LineCount(fs, dev)
    ensures r.Failure? ==> r.error.FileNotFound? && r.error.path in train + test + dev
    ensures AllReadable(fs, train) && AllReadable(fs, test) && AllReadable(fs, dev) ==> r.Success?
  {
    TargetFilesDistinct(txtDir);
    after := fs;
    var trainMerge := MergeTxtFiles(fs, train, "train", txtDir);
    if trainMerge.Failure? {
      return Failure(trainMerge.error), after;
    }
    var fs1 := trainMerge.value.fs;
    after := fs1;
    var testMerge := MergeTxtFiles(fs1, test, "test", txtDir);
    if testMerge.Failure? {
      if AllReadable(fs, test) {
        ConcatAfterWriteReadable(fs, trainMerge.value.path, Concat(fs, train), test);
      }
      return Failure(testMerge.error), after;
    }
    var fs2 := testMerge.value.fs;
    after := fs2;
    var devMerge := MergeTxtFiles(fs2, dev, "dev", txtDir);
    if devMerge.Failure? {
      if AllReadable(fs, dev) {
        ConcatAfterWriteReadable(fs, trainMerge.value.path, Concat(fs, train), dev);
        ConcatAfterWriteReadable(fs1, testMerge.value.path, Concat(fs1, test), dev);
      }
      return Failure(devMerge.error), after;
    }
    after := devMerge.value.fs;
    r := Success(Manifests(trainMerge.value.count, testMerge.value.count, devMerge.value.count));
    if SourcesApart(txtDir, test, dev) {
      assert trainMerge.value.path !in test && trainMerge.value.path !in dev;
      ConcatAfterWrite(fs, trainMerge.value.path, Concat(fs, train), test);
      ConcatAfterWrite(fs, trainMerge.value.path, Concat(fs, train), dev);
      ConcatAfterWrite(fs1, testMerge.value.path, Concat(fs1, test), dev);
    }
  }

  /** `generate_dataset` after the loaders have run, as written: the train list keeps an
      empty slot without TIMIT, and `train_len` is rebound to the sort's total length before
      the metadata is stored. `after` is the file system the run leaves behind. */
  method GenerateDatasetAsWritten(fs: FileSystem, o: LoaderOutputs, useTimit: bool, txtDir: string,
                                  length: string -> nat, picks: seq<nat>)
    returns (r: Result<CorpusJson>, after: FileSystem)
    ensures !useTimit ==> r.Failure? && r.error.FileNotFound? && after == fs
    ensures !useTimit && AllReadable(fs, [o.cvTrain, o.lsTrain, o.tatoebaTrain, o.tedTrain]) ==>
      r == Failure(FileNotFound(""))
    ensures OnlyTargetsWritten(fs, after, txtDir)
    ensures r.Success? ==>
      && AllReadable(fs, TrainFilesAsWritten(o, useTimit))
      && var meta := ReadCorpusJson(r.value);
      && var report := SortTxtBySeqLen(Concat(fs, TrainFilesAsWritten(o, useTimit)), length, picks,
                                       DefaultNumBuckets, DefaultMaxLength);
      && meta.Some? && report.Success?
      && meta.value.trainSize == report.value.totalLength
      && meta.value.trainLength == report.value.totalLength
  {
    var trainFiles := TrainFilesAsWritten(o, useTimit);
    if !useTimit {
      AsWrittenTrainListUnreadableWithoutTimit(fs, o);
      if AllReadable(fs, [o.cvTrain, o.lsTrain, o.tatoebaTrain, o.tedTrain]) {
        assert trainFiles[..4] == [o.cvTrain, o.lsTrain, o.tatoebaTrain, o.tedTrain];
        FirstUnreadableIsUnique(fs, trainFiles, 4);
      }
    }
    var merged;
    merged, after := MergeAll(fs, trainFiles, TestFiles(o), DevFiles(o), txtDir);
    if merged.Failure? {
      return Failure(merged.error), after;
    }
    var trainPath := TargetFile(txtDir, "train");
    var sorted := SortTxtBySeqLen(after[trainPath], length, picks, DefaultNumBuckets, DefaultMaxLength);
    if sorted.Failure? {
      return Failure(sorted.error), after;
    }
    var report := sorted.value;
    var trainLen := report.totalLength;
    after := after[trainPath := report.lines];
    r := Success(StoreCorpusJson(trainLen, merged.value.testCount, merged.value.devCount, report.boundaries, trainLen));
  }

  /** `generate_dataset` with both defects corrected: TIMIT is left out of the train merge
      when it is not used, and `train_size` is the number of merged training lines. `after`
      is the file system the run leaves behind: when the sort raises, `train.txt` keeps the
      unsorted merge. */
  method GenerateDataset(fs: FileSystem, o: LoaderOutputs, useTimit: bool, txtDir: string,
                         length: string -> nat, picks: seq<nat>)
    returns (r: Result<CorpusJson>, after: FileSystem)
    ensures OnlyTargetsWritten(fs, after, txtDir)
    ensures !AllReadable(fs, TrainFiles(o, useTimit)) ==> r.Failure? && after == fs
    ensures AllReadable(fs, TrainFiles(o, useTimit)) ==>
      && TargetFile(txtDir, "train") in after
      && var report := SortTxtBySeqLen(Concat(fs, TrainFiles(o, useTimit)), length, picks,
                                       DefaultNumBuckets, DefaultMaxLength);
      && (r.Failure? ==> after[TargetFile(txtDir, "train")] == Concat(fs, TrainFiles(o, useTimit)))
      && (r.Success? ==>
            var meta := ReadCorpusJson(r.value);
            && meta.Some? && report.Success?
            && meta.value.trainSize == LineCount(fs, TrainFiles(o, useTimit))
            && meta.value.trainLength == report.value.totalLength
            && meta.value.boundaries == report.value.boundaries
            && after[TargetFile(txtDir, "train")] == report.value.lines)
    ensures r.Success? && SourcesApart(txtDir, TestFiles(o), DevFiles(o)) ==>
      && AllReadable(fs, TestFiles(o)) && AllReadable(fs, DevFiles(o))
      && var meta := ReadCorpusJson(r.value);
      && meta.Some?
      && meta.value.testSize == LineCount(fs, TestFiles(o))
      && meta.value.devSize == LineCount(fs, DevFiles(o))
    ensures r.Failure? && r.error.FileNotFound? ==> r.error.path in TrainFiles(o, useTimit) + TestFiles(o) + DevFiles(o)
    ensures AllReadable(fs, TrainFiles(o, useTimit)) && AllReadable(fs, TestFiles(o))
            && AllReadable(fs, DevFiles(o))
            && SortTxtBySeqLen(Concat(fs, TrainFiles(o, useTimit)), length, picks,
                               DefaultNumBuckets, DefaultMaxLength).Success?
            ==> r.Success?
  {
    var merged;
    merged, after := MergeAll(fs, TrainFiles(o, useTimit), TestFiles(o), DevFiles(o), txtDir);
    if merged.Failure? {
      return Failure(merged.error), after;
    }
    var trainPath := TargetFile(txtDir, "train");
    var sorted := SortTxtBySeqLen(after[trainPath], length, picks, DefaultNumBuckets, DefaultMaxLength);
    if sorted.Failure? {
      return Failure(sorted.error), after;
    }
    var report := sorted.value;
    after := after[trainPath := report.lines];
    r := Success(StoreCorpusJson(merged.value.trainCount, merged.value.testCount, merged.value.devCount,
                                 report.boundaries, report.totalLength));
  }
}

=== FILE: manifest.dfy ===
/** Manifest lines: `<audio path><space><transcription>`, cut at the first space
    as `line.split(' ', 1)` does, and rejoined as `'{} {}'.format(path, label)`. */
module Manifest {
  import opened Results

  const Separator: char := ' '

  /** A manifest line cut in two. The transcript keeps everything after the first space,
      including further spaces and the line's own newline. */
  datatype Entry = Entry(path: string, transcript: string)

  function Join(e: Entry): string {
    e.path + [Separator] + e.transcript
  }

  /** Index of the first space of `s`, or `|s|` when there is none. */
  function FirstSpace(s: string): (i: nat)
    ensures i <= |s|
    ensures i < |s| ==> s[i] == Separator
    ensures forall k :: 0 <= k < i ==> s[k] != Separator
    ensures i == |s| <==> Separator !in s
  {
    if |s| == 0 || s[0] == Separator then 0 else 1 + FirstSpace(s[1..])
  }

  /** The cut of `line` at its first space; a line without a space is all path. */
  function Cut(line: string): Entry {
    var i := FirstSpace(line);
    if i < |line| then Entry(line[..i], line[i + 1..]) else Entry(line, [])
  }

  /** `line.split(' ', 1)` unpacked into two names: fails unless the line has a space. */
  function SplitFirstSpace(line: string): (r: Result<Entry>)
    ensures r.Success? <==> Separator in line
    ensures r.Failure? ==> r.error == MissingSeparator(line)
    ensures r.Success? ==> Separator !in r.value.path && Join(r.value) == line
  {
    if Separator in line then
      var i := FirstSpace(line);
      assert line == line[..i] + [line[i]] + line[i + 1..];
      Success(Cut(line))
    else
      Failure(MissingSeparator(line))
  }

  /** Joining a path that holds no space with any transcript, then splitting again,
      gives back the same path and transcript. */
  lemma SplitJoinRoundTrip(e: Entry)
    requires Separator !in e.path
    ensures SplitFirstSpace(Join(e)) == Success(e)
  {
    var line := Join(e);
    assert line[|e.path|] == Separator;
    assert forall k :: 0 <= k < |e.path| ==> line[k] == e.path[k];
    var i := FirstSpace(line);
    assert i == |e.path|;
    assert line[..i] == e.path;
    assert line[i + 1..] == e.transcript;
  }
}

=== FILE: results.dfy ===
/** The errors the corpus pipeline raises, and the `Result` and `Option` types that carry them. */
module Results {

  /** The exceptions the modelled code can raise, one per source of failure. */
  datatype Error =
    | MissingSeparator(line: string)  // `line.split(' ', 1)` yields one part and the unpacking fails
    | ZeroBuckets                     // `len(lengths) // num_buckets` with `num_buckets == 0`
    | ZeroStep                        // `range(step, n, step)` with `step == 0`
    | InvalidTarget(target: string)   // merge target outside 'test', 'dev', 'train'
    | FileNotFound(path: string)      // `open(path, 'r')` on a path that names no file

  datatype Result<+T> = Success(value: T) | Failure(error: Error) {

    predicate IsFailure() {
      Failure?
    }

    function PropagateFailure<U>(): Result<U>
      requires Failure?
    {
      Failure(error)
    }

    function Extract(): T
      requires Success?
    {
      value
    }
  }

  datatype Option<+T> = None | Some(value: T)
}

=== FILE: samples.dfy ===
/** Measured manifest lines and the list operations `sort_txt_by_seq_len` applies to
    them: probing, sorting by length, dropping over-long samples, summing. */
module Samples {
  import opened Results
  import opened Manifest
  import opened Sequences

  /** The triple `(length, wav_path, label)` that `_feature_length` returns. */
  datatype Sample = Sample(length: nat, path: string, transcript: string)

  /** What a probe guarantees of a sample: its length is the oracle's length of its own
      path, and that path holds no space. */
  predicate Measured(s: Sample, length: string -> nat) {
    s.length == length(s.path) && Separator !in s.path
  }

  /** `'{} {}'.format(p, l)`: the manifest line a sample is written back as. Splitting it
      at its first space recovers path and transcription whenever the path has no space. */
  function ToLine(s: Sample): (line: string)
    ensures |line| == |s.path| + 1 + |s.transcript|
    ensures Separator !in s.path ==> SplitFirstSpace(line) == Success(Entry(s.path, s.transcript))
  {
    var e := Entry(s.path, s.transcript);
    assert Separator !in s.path ==> SplitFirstSpace(Join(e)) == Success(e) by {
      if Separator !in s.path {
        SplitJoinRoundTrip(e);
      }
    }
    Join(e)
  }

  /** The sample a line yields when it has a space; `length` stands for decoding the
      audio file under the corpus directory. */
  function Measure(line: string, length: string -> nat): (s: Sample)
    ensures Separator in line ==> Measured(s, length) && ToLine(s) == line
  {
    var e := Cut(line);
    assert Separator in line ==> SplitFirstSpace(line) == Success(e);
    Sample(length(e.path), e.path, e.transcript)
  }

  /** Measuring the line a measured sample is written as gives the sample back. */
  lemma MeasureToLine(s: Sample, length: string -> nat)
    requires Measured(s, length)
    ensures Measure(ToLine(s), length) == s
  {
    SplitJoinRoundTrip(Entry(s.path, s.transcript));
  }

  /** `_feature_length(line)`: split on the first space, then measure the path. */
  function FeatureLength(line: string, length: string -> nat): (r: Result<Sample>)
    ensures r.Success? <==> Separator in line
    ensures r.Failure? ==> r.error == MissingSeparator(line)
    ensures r.Success? ==> Measured(r.value, length) && ToLine(r.value) == line
    ensures r.Success? ==> r.value == Measure(line, length)
  {
    var e :- SplitFirstSpace(line);
    Success(Sample(length(e.path), e.path, e.transcript))
  }

  predicate WellFormed(lines: seq<string>) {
    forall i :: 0 <= i < |lines| ==> Separator in lines[i]
  }

  lemma WellFormedPermutation(a: seq<string>, b: seq<string>)
    requires multiset(a) == multiset(b)
    ensures WellFormed(a) <==> WellFormed(b)
  {
    forall i | 0 <= i < |a|
      ensures a[i] in b
    {
      assert a[i] in multiset(b);
    }
    forall i | 0 <= i < |b|
      ensures b[i] in a
    {
      assert b[i] in multiset(a);
    }
  }

  function MeasureAll(lines: seq<string>, length: string -> nat): (r: seq<Sample>)
    ensures |r| == |lines|
    ensures forall i :: 0 <= i < |lines| ==> r[i] == Measure(lines[i], length)
  {
    seq(|lines|, i requires 0 <= i < |lines| => Measure(lines[i], length))
  }

  /** Probing every line in the order the results arrive; the first line without a
      space aborts the whole scan. */
  function ScanLines(lines: seq<string>, length: string -> nat): (r: Result<seq<Sample>>)
    ensures r.Success? <==> WellFormed(lines)
    ensures r.Failure? ==> r.error.MissingSeparator? && r.error.line in lines && Separator !in r.error.line
    ensures r.Success? ==> r.value == MeasureAll(lines, length)
  {
    if |lines| == 0 then Success([])
    else
      var first :- FeatureLength(lines[0], length);
      var rest :- ScanLines(lines[1..], length);
      assert MeasureAll(lines, length) == [first] + rest;
      Success([first] + rest)
  }

  lemma MeasureAllMeasured(lines: seq<string>, length: string -> nat)
    requires WellFormed(lines)
    ensures forall s :: s in MeasureAll(lines, length) ==> Measured(s, length)
  {
    forall s | s in MeasureAll(lines, length)
      ensures Measured(s, length)
    {
      var i :| 0 <= i < |lines| && MeasureAll(lines, length)[i] == s;
      assert Separator in lines[i];
    }
  }

  predicate SortedByLength(s: seq<Sample>) {
    forall i, j :: 0 <= i < j < |s| ==> s[i].length <= s[j].length
  }

  /** Places `x` before the first element at least as long, keeping the order stable. */
  function Insert(x: Sample, s: seq<Sample>): (r: seq<Sample>)
    requires SortedByLength(s)
    ensures SortedByLength(r)
    ensures |r| == |s| + 1
    ensures forall y :: y in r <==> y == x || y in s
    ensures r[0] == x || (|s| > 0 && r[0] == s[0])
  {
    if |s| == 0 || x.length <= s[0].length then [x] + s
    else
      var rest := Insert(x, s[1..]);
      assert s[0].length <= rest[0].length;
      [s[0]] + rest
  }

  /** `sorted(buffer, key=lambda x: x[0])`. */
  function SortByLength(s: seq<Sample>): (r: seq<Sample>)
    ensures SortedByLength(r)
    ensures |r| == |s|
    ensures forall y :: y in r <==> y in s
  {
    if |s| == 0 then [] else Insert(s[0], SortByLength(s[1..]))
  }

  lemma {:induction false} InsertIsPermutation(x: Sample, s: seq<Sample>)
    requires SortedByLength(s)
    ensures multiset(Insert(x, s)) == multiset(s) + multiset{x}
  {
    if |s| > 0 && x.length > s[0].length {
      InsertIsPermutation(x, s[1..]);
      assert s == [s[0]] + s[1..];
    }
  }

  lemma ConsMultiset<T>(s: seq<T>)
    requires |s| > 0
    ensures multiset(s) == multiset(s[1..]) + multiset{s[0]}
  {
    assert s == [s[0]] + s[1..];
  }

  /** Sorting neither adds, drops nor alters a sample. */
  lemma {:induction false} SortIsPermutation(s: seq<Sample>)
    ensures multiset(SortByLength(s)) == multiset(s)
  {
    if |s| > 0 {
      var rest := SortByLength(s[1..]);
      SortIsPermutation(s[1..]);
      InsertIsPermutation(s[0], rest);
      ConsMultiset(s);
    }
  }

  predicate Kept(x: Sample, maxLength: int) {
    maxLength <= 0 || x.length < maxLength
  }

  /** `[s for s in buffer if s[0] < max_length]`. */
  function Below(s: seq<Sample>, maxLength: int): (r: seq<Sample>)
    ensures |r| <= |s|
    ensures forall y :: y in r <==> y in s && y.length < maxLength
  {
    if |s| == 0 then []
    else if s[0].length < maxLength then [s[0]] + Below(s[1..], maxLength)
    else Below(s[1..], maxLength)
  }

  /** The filtering step: a positive `max_length` drops every sample that is not shorter;
      zero or below keeps the buffer as it is. */
  function KeepShorter(s: seq<Sample>, maxLength: int): (r: seq<Sample>)
    ensures |r| <= |s|
    ensures maxLength <= 0 ==> r == s
    ensures forall y :: y in r <==> y in s && (maxLength <= 0 || y.length < maxLength)
  {
    if maxLength > 0 then Below(s, maxLength) else s
  }

  /** Filtering a buffer sorted by length leaves it sorted by length. */
  lemma {:induction false} BelowKeepsOrder(s: seq<Sample>, maxLength: int)
    requires SortedByLength(s)
    ensures SortedByLength(Below(s, maxLength))
  {
    if |s| > 0 {
      SortedTail(s);
      BelowKeepsOrder(s[1..], maxLength);
      var rest := Below(s[1..], maxLength);
      if s[0].length < maxLength {
        forall y | y in rest
          ensures s[0].length <= y.length
        {
          var k :| 0 <= k < |s[1..]| && s[1..][k] == y;
          assert s[k + 1] == y;
        }
        SortedCons(s[0], rest);
      }
    }
  }

  lemma SortedTail(s: seq<Sample>)
    requires SortedByLength(s) && |s| > 0
    ensures SortedByLength(s[1..])
  {
    forall i, j | 0 <= i < j < |s| - 1
      ensures s[1..][i].length <= s[1..][j].length
    {
      assert s[1..][i] == s[i + 1] && s[1..][j] == s[j + 1];
    }
  }

  lemma SortedCons(x: Sample, s: seq<Sample>)
    requires SortedByLength(s)
    requires forall y :: y in s ==> x.length <= y.length
    ensures SortedByLength([x] + s)
  {
    forall i, j | 0 <= i < j < |s| + 1
      ensures ([x] + s)[i].length <= ([x] + s)[j].length
    {
      assert ([x] + s)[j] == s[j - 1];
      if i > 0 {
        assert ([x] + s)[i] == s[i - 1];
      } else {
        assert s[j - 1] in s;
      }
    }
  }

  lemma KeepShorterKeepsOrder(s: seq<Sample>, maxLength: int)
    requires SortedByLength(s)
    ensures SortedByLength(KeepShorter(s, maxLength))
  {
    if maxLength > 0 {
      BelowKeepsOrder(s, maxLength);
    }
  }

  /** Each sample keeps all of its occurrences if it is short enough, and none otherwise. */
  lemma {:induction false} BelowCounts(s: seq<Sample>, maxLength: int)
    ensures forall y :: multiset(Below(s, maxLength))[y] == if y.length < maxLength then multiset(s)[y] else 0
  {
    if |s| > 0 {
      BelowCounts(s[1..], maxLength);
      assert s == [s[0]] + s[1..];
    }
  }

  lemma KeepShorterCounts(s: seq<Sample>, maxLength: int)
    ensures forall y :: multiset(KeepShorter(s, maxLength))[y] == if Kept(y, maxLength) then multiset(s)[y] else 0
  {
    if maxLength > 0 {
      BelowCounts(s, maxLength);
    }
  }

  /** Filtering two permutations of each other leaves permutations of each other. */
  lemma KeepShorterOfPermutation(a: seq<Sample>, b: seq<Sample>, maxLength: int)
    requires multiset(a) == multiset(b)
    ensures multiset(KeepShorter(a, maxLength)) == multiset(KeepShorter(b, maxLength))
  {
    KeepShorterCounts(a, maxLength);
    KeepShorterCounts(b, maxLength);
    var ka, kb := KeepShorter(a, maxLength), KeepShorter(b, maxLength);
    assert forall y :: multiset(ka)[y] == multiset(kb)[y];
  }

  function LengthOf(s: Sample): nat {
    s.length
  }

  /** `[l[0] for l in buffer]`. */
  function Lengths(s: seq<Sample>): (r: seq<nat>)
    ensures |r| == |s|
    ensures forall i :: 0 <= i < |s| ==> r[i] == s[i].length
    ensures SortedByLength(s) <==> NonDecreasing(r)
  {
    MapSeq(LengthOf, s)
  }

  /** `sum(map(lambda x: x[0], buffer))`, before any scaling: no sample is longer than
      the total, and the total is zero exactly when every sample is empty. */
  function TotalLength(s: seq<Sample>): (t: nat)
    ensures forall i :: 0 <= i < |s| ==> s[i].length <= t
    ensures t == 0 <==> forall i :: 0 <= i < |s| ==> s[i].length == 0
  {
    SumBounds(Lengths(s));
    Sum(Lengths(s))
  }

  /** The lines written back, one per sample, lengths stripped; each splits back into its
      sample's path and transcription. */
  function Render(s: seq<Sample>): (r: seq<string>)
    ensures |r| == |s|
    ensures forall i :: 0 <= i < |s| ==> r[i] == ToLine(s[i])
    ensures forall i :: 0 <= i < |s| && Separator !in s[i].path ==>
      SplitFirstSpace(r[i]) == Success(Entry(s[i].path, s[i].transcript))
  {
    MapSeq(ToLine, s)
  }

  lemma RenderCons(x: Sample, t: seq<Sample>)
    ensures Render([x] + t) == [ToLine(x)] + Render(t)
  {
    MapConcat(ToLine, [x], t);
  }
}

=== FILE: sequences.dfy ===
/** Generic facts about sequences used throughout the model: element-wise mapping,
    and that a sorted sequence of naturals is determined by its multiset. */
module Sequences {

  function MapSeq<A, B>(f: A -> B, s: seq<A>): (r: seq<B>)
    ensures |r| == |s|
    ensures forall i :: 0 <= i < |s| ==> r[i] == f(s[i])
  {
    seq(|s|, i requires 0 <= i < |s| => f(s[i]))
  }

  lemma MapConcat<A, B>(f: A -> B, a: seq<A>, b: seq<A>)
    ensures MapSeq(f, a + b) == MapSeq(f, a) + MapSeq(f, b)
  {
  }

  lemma MultisetCancel<T>(m: multiset<T>, n: multiset<T>, x: T)
    requires m + multiset{x} == n + multiset{x}
    ensures m == n
  {
    assert forall z :: m[z] == (m + multiset{x})[z] - multiset{x}[z];
    assert forall z :: n[z] == (n + multiset{x})[z] - multiset{x}[z];
  }

  /** Removing the head of `a` and one occurrence of it from `b` keeps the two permutations of each other. */
  lemma RemoveMatching<T>(a: seq<T>, b: seq<T>, i: nat)
    requires |a| > 0 && i < |b| && b[i] == a[0]
    requires multiset(a) == multiset(b)
    ensures multiset(a[1..]) == multiset(b[..i] + b[i+1..])
  {
    assert b == b[..i] + [b[i]] + b[i+1..];
    assert multiset(b) == multiset(b[..i] + b[i+1..]) + multiset{b[i]};
    assert a == [a[0]] + a[1..];
    assert multiset(a) == multiset(a[1..]) + multiset{a[0]};
    MultisetCancel(multiset(a[1..]), multiset(b[..i] + b[i+1..]), a[0]);
  }

  /** Mapping a function over two permutations of each other gives permutations of each other. */
  lemma {:induction false} MapPreservesPermutation<A, B>(f: A -> B, a: seq<A>, b: seq<A>)
    requires multiset(a) == multiset(b)
    ensures multiset(MapSeq(f, a)) == multiset(MapSeq(f, b))
  {
    if |a| == 0 {
      assert |multiset(b)| == 0;
    } else {
      var x := a[0];
      assert x in multiset(b);
      var i :| 0 <= i < |b| && b[i] == x;
      var rest := b[..i] + b[i+1..];
      RemoveMatching(a, b, i);
      MapPreservesPermutation(f, a[1..], rest);
      assert b == b[..i] + [x] + b[i+1..];
      assert a == [x] + a[1..];
      MapConcat(f, [x], a[1..]);
      MapConcat(f, b[..i], b[i+1..]);
      MapConcat(f, b[..i] + [x], b[i+1..]);
      MapConcat(f, b[..i], [x]);
    }
  }

  predicate NonDecreasing(s: seq<nat>) {
    forall i, j :: 0 <= i < j < |s| ==> s[i] <= s[j]
  }

  predicate StrictlyIncreasing(s: seq<nat>) {
    forall i, j :: 0 <= i < j < |s| ==> s[i] < s[j]
  }

  lemma HeadIsLeast(x: seq<nat>, v: nat)
    requires NonDecreasing(x) && v in multiset(x)
    ensures x[0] <= v
  {
    var j :| 0 <= j < |x| && x[j] == v;
  }

  lemma SortedHeadsAgree(x: seq<nat>, y: seq<nat>)
    requires NonDecreasing(x) && NonDecreasing(y)
    requires multiset(x) == multiset(y)
    requires |x| > 0 && |y| == |x|
    ensures x[0] == y[0]
  {
    assert y[0] in multiset(x);
    assert x[0] in multiset(y);
    HeadIsLeast(x, y[0]);
    HeadIsLeast(y, x[0]);
  }

  lemma SameHeadSameTail<T>(x: seq<T>, y: seq<T>)
    requires |x| > 0 && |y| > 0 && x[0] == y[0] && x[1..] == y[1..]
    ensures x == y
  {
    assert x == [x[0]] + x[1..];
    assert y == [y[0]] + y[1..];
  }

  /** Two non-decreasing sequences holding the same values equal each other. */
  lemma {:induction false} SortedPermutationsAreEqual(x: seq<nat>, y: seq<nat>)
    requires NonDecreasing(x) && NonDecreasing(y)
    requires multiset(x) == multiset(y)
    ensures x == y
  {
    if |x| > 0 {
      SortedTails(x, y);
      SortedPermutationsAreEqual(x[1..], y[1..]);
      SameHeadSameTail(x, y);
    } else {
      assert |multiset(y)| == 0;
    }
  }

  /** Two sorted permutations of each other share their head, and their tails are again
      sorted permutations of each other. */
  lemma SortedTails(x: seq<nat>, y: seq<nat>)
    requires NonDecreasing(x) && NonDecreasing(y)
    requires multiset(x) == multiset(y)
    requires |x| > 0
    ensures |y| > 0 && x[0] == y[0]
    ensures NonDecreasing(x[1..]) && NonDecreasing(y[1..])
    ensures multiset(x[1..]) == multiset(y[1..])
  {
    SameLength(x, y);
    SortedHeadsAgree(x, y);
    TailsPermutation(x, y);
    TailOfSorted(x);
    TailOfSorted(y);
  }

  lemma SameLength<T>(x: seq<T>, y: seq<T>)
    requires multiset(x) == multiset(y)
    ensures |x| == |y|
  {
    assert |x| == |multiset(x)|;
    assert |y| == |multiset(y)|;
  }

  lemma TailsPermutation<T>(x: seq<T>, y: seq<T>)
    requires multiset(x) == multiset(y)
    requires |x| > 0 && |y| > 0 && x[0] == y[0]
    ensures multiset(x[1..]) == multiset(y[1..])
  {
    RemoveMatching(x, y, 0);
    assert y[..0] + y[1..] == y[1..];
  }

  lemma TailOfSorted(x: seq<nat>)
    requires NonDecreasing(x) && |x| > 0
    ensures NonDecreasing(x[1..])
  {
    forall i, j | 0 <= i < j < |x| - 1
      ensures x[1..][i] <= x[1..][j]
    {
      assert x[1..][i] == x[i + 1] && x[1..][j] == x[j + 1];
    }
  }

  /** `sum(xs)` over naturals. */
  function Sum(xs: seq<nat>): nat {
    if |xs| == 0 then 0 else xs[0] + Sum(xs[1..])
  }

  /** Every term is at most the sum, and the sum is zero exactly when every term is. */
  lemma {:induction false} SumBounds(xs: seq<nat>)
    ensures forall i :: 0 <= i < |xs| ==> xs[i] <= Sum(xs)
    ensures Sum(xs) == 0 <==> forall i :: 0 <= i < |xs| ==> xs[i] == 0
  {
    if |xs| > 0 {
      SumBounds(xs[1..]);
      assert forall i :: 1 <= i < |xs| ==> xs[i] == xs[1..][i - 1];
    }
  }

  /** A sum of equal terms is the term times the count. */
  lemma {:induction false} SumConstant(xs: seq<nat>, k: nat)
    requires forall i :: 0 <= i < |xs| ==> xs[i] == k
    ensures Sum(xs) == k * |xs|
  {
    if |xs| > 0 {
      SumConstant(xs[1..], k);
    }
  }

  lemma {:induction false} SumConcat(a: seq<nat>, b: seq<nat>)
    ensures Sum(a + b) == Sum(a) + Sum(b)
  {
    if |a| == 0 {
      assert a + b == b;
    } else {
      assert (a + b)[1..] == a[1..] + b;
      SumConcat(a[1..], b);
    }
  }

  /** A sum does not depend on the order of its terms. */
  lemma {:induction false} SumOfPermutation(a: seq<nat>, b: seq<nat>)
    requires multiset(a) == multiset(b)
    ensures Sum(a) == Sum(b)
  {
    if |a| == 0 {
      assert |multiset(b)| == 0;
    } else {
      assert a[0] in multiset(b);
      var i :| 0 <= i < |b| && b[i] == a[0];
      RemoveMatching(a, b, i);
      SumOfPermutation(a[1..], b[..i] + b[i+1..]);
      assert b == b[..i] + ([b[i]] + b[i+1..]);
      SumConcat(b[..i], [b[i]] + b[i+1..]);
      SumConcat(b[..i], b[i+1..]);
      assert ([b[i]] + b[i+1..])[1..] == b[i+1..];
    }
  }
}

=== FILE: sort_txt.dfy ===
/** `sort_txt_by_seq_len`: measure every manifest line in a worker pool, sort the samples
    by length, drop the over-long ones, suggest bucket boundaries, sum the kept lengths,
    and hand back the lines to write over the manifest. */
module SortTxt {
  import opened Results
  import opened Manifest
  import opened Sequences
  import opened Arrival
  import opened Samples
  import opened Buckets

  const DefaultNumBuckets: int := 64
  const DefaultMaxLength: int := 1700

  /** One successful run: the lines written back over the manifest, the suggested
      boundaries, the summed length of the kept samples (before the float scaling), and
      the number of samples the filter removed. */
  datatype SortReport = SortReport(lines: seq<string>, boundaries: seq<nat>, totalLength: nat, removed: nat)

  /** The whole operation. `length` stands for decoding a sample's audio and `picks` for
      the order in which the pool hands results back. */
  function SortTxtBySeqLen(lines: seq<string>, length: string -> nat, picks: seq<nat>,
                           numBuckets: int, maxLength: int): (r: Result<SortReport>)
    ensures r.Success? ==> WellFormed(lines)
    ensures r.Success? ==> |r.value.lines| + r.value.removed == |lines|
    ensures r.Success? && maxLength <= 0 ==> r.value.removed == 0
  {
    GatherIsPermutation(lines, picks);
    WellFormedPermutation(Gather(lines, picks), lines);
    var buffer :- ScanLines(Gather(lines, picks), length);
    var sorted := SortByLength(buffer);
    var kept := KeepShorter(sorted, maxLength);
    var boundaries :- BucketBoundaries(Lengths(kept), numBuckets);
    Success(SortReport(Render(kept), boundaries, TotalLength(kept), |sorted| - |kept|))
  }

  // Reference definitions over the input lines, in input order.

  /** The length the oracle gives the audio path of a line. */
  function LineLength(line: string, length: string -> nat): nat {
    length(Cut(line).path)
  }

  function LineLengths(lines: seq<string>, length: string -> nat): (r: seq<nat>)
    ensures |r| == |lines|
    ensures forall i :: 0 <= i < |lines| ==> r[i] == LineLength(lines[i], length)
  {
    seq(|lines|, i requires 0 <= i < |lines| => LineLength(lines[i], length))
  }

  /** The input lines the filter keeps, in input order: all of them when `maxLength` is
      not positive, else those whose length is below it. */
  function ShortLines(lines: seq<string>, length: string -> nat, maxLength: int): (r: seq<string>)
    ensures |r| <= |lines|
    ensures maxLength <= 0 ==> r == lines
    ensures forall l :: l in r <==> l in lines && (maxLength <= 0 || LineLength(l, length) < maxLength)
  {
    if |lines| == 0 then []
    else
      var rest := ShortLines(lines[1..], length, maxLength);
      assert lines == [lines[0]] + lines[1..];
      if maxLength <= 0 || LineLength(lines[0], length) < maxLength then [lines[0]] + rest else rest
  }

  lemma {:induction false} RenderKeptMeasured(lines: seq<string>, length: string -> nat, maxLength: int)
    requires WellFormed(lines)
    ensures Render(KeepShorter(MeasureAll(lines, length), maxLength)) == ShortLines(lines, length, maxLength)
  {
    if maxLength > 0 {
      RenderBelowMeasured(lines, length, maxLength);
    } else {
      assert Render(MeasureAll(lines, length)) == lines;
    }
  }

  lemma {:induction false} RenderBelowMeasured(lines: seq<string>, length: string -> nat, maxLength: int)
    requires WellFormed(lines) && maxLength > 0
    ensures Render(Below(MeasureAll(lines, length), maxLength)) == ShortLines(lines, length, maxLength)
  {
    if |lines| > 0 {
      var all := MeasureAll(lines, length);
      assert all[1..] == MeasureAll(lines[1..], length);
      RenderBelowMeasured(lines[1..], length, maxLength);
      assert all[0].length == LineLength(lines[0], length);
      if all[0].length < maxLength {
        assert Below(all, maxLength) == [all[0]] + Below(all[1..], maxLength);
        RenderCons(all[0], Below(all[1..], maxLength));
      }
    }
  }

  /** A line written from a measured sample has a space, and its length is the sample's. */
  lemma RenderedLengths(s: seq<Sample>, length: string -> nat)
    requires forall x :: x in s ==> Measured(x, length)
    ensures WellFormed(Render(s))
    ensures LineLengths(Render(s), length) == Lengths(s)
  {
    forall i | 0 <= i < |s|
      ensures Separator in Render(s)[i]
      ensures LineLength(Render(s)[i], length) == s[i].length
    {
      assert s[i] in s;
      MeasureToLine(s[i], length);
      assert ToLine(s[i])[|s[i].path|] == Separator;
    }
  }

  /** The samples a run keeps, when every line has a space. */
  function KeptSamples(lines: seq<string>, length: string -> nat, picks: seq<nat>, maxLength: int): seq<Sample>
    requires WellFormed(lines)
  {
    KeepShorter(SortByLength(MeasureAll(Gather(lines, picks), length)), maxLength)
  }

  lemma SortTxtUnfold(lines: seq<string>, length: string -> nat, picks: seq<nat>, numBuckets: int, maxLength: int)
    requires WellFormed(lines)
    ensures var r := SortTxtBySeqLen(lines, length, picks, numBuckets, maxLength);
            var kept := KeptSamples(lines, length, picks, maxLength);
            var b := BucketBoundaries(Lengths(kept), numBuckets);
            && (r.Success? <==> b.Success?)
            && (r.Failure? ==> r.error == b.error)
            && (r.Success? ==> r.value == SortReport(Render(kept), b.value, TotalLength(kept), |lines| - |kept|))
  {
    GatherIsPermutation(lines, picks);
    WellFormedPermutation(Gather(lines, picks), lines);
  }

  /** Whatever the arrival order, the kept samples are the short input lines, measured
      and sorted. */
  lemma KeptSamplesFacts(lines: seq<string>, length: string -> nat, picks: seq<nat>, maxLength: int)
    requires WellFormed(lines)
    ensures var kept := KeptSamples(lines, length, picks, maxLength);
            var short := ShortLines(lines, length, maxLength);
            && SortedByLength(kept)
            && |kept| == |short|
            && multiset(Render(kept)) == multiset(short)
            && WellFormed(Render(kept))
            && LineLengths(Render(kept), length) == Lengths(kept)
            && TotalLength(kept) == Sum(LineLengths(short, length))
  {
    var arrived := Gather(lines, picks);
    GatherIsPermutation(lines, picks);
    WellFormedPermutation(arrived, lines);
    var f := (l: string) => Measure(l, length);
    MapPreservesPermutation(f, arrived, lines);
    assert MeasureAll(arrived, length) == MapSeq(f, arrived);
    assert MeasureAll(lines, length) == MapSeq(f, lines);
    var buffer := MeasureAll(arrived, length);
    SortIsPermutation(buffer);
    var sorted := SortByLength(buffer);
    var kept := KeepShorter(sorted, maxLength);
    KeepShorterKeepsOrder(sorted, maxLength);
    var reference := KeepShorter(MeasureAll(lines, length), maxLength);
    KeepShorterOfPermutation(sorted, MeasureAll(lines, length), maxLength);
    assert |kept| == |multiset(kept)| == |multiset(reference)| == |reference|;
    MapPreservesPermutation(ToLine, kept, reference);
    RenderKeptMeasured(lines, length, maxLength);
    MeasureAllMeasured(arrived, length);
    MeasureAllMeasured(lines, length);
    RenderedLengths(kept, length);
    RenderedLengths(reference, length);
    MapPreservesPermutation(LengthOf, kept, reference);
    SumOfPermutation(Lengths(kept), Lengths(reference));
  }

  /** The run fails exactly when a line has no space, or when the kept samples give no
      usable stride: `num_buckets` is zero, or larger than the number kept (an empty
      manifest included). */
  lemma SortTxtFailsExactlyWhen(lines: seq<string>, length: string -> nat, picks: seq<nat>,
                                numBuckets: int, maxLength: int)
    ensures var r := SortTxtBySeqLen(lines, length, picks, numBuckets, maxLength);
            var kept := |ShortLines(lines, length, maxLength)|;
            && (r.Failure? <==> !WellFormed(lines) || numBuckets == 0 || kept == 0 || kept < numBuckets)
            && (!WellFormed(lines) ==>
                  r.error.MissingSeparator? && r.error.line in lines && Separator !in r.error.line)
            && (WellFormed(lines) && numBuckets == 0 ==> r.error == ZeroBuckets)
            && (WellFormed(lines) && numBuckets != 0 && r.Failure? ==> r.error == ZeroStep)
  {
    var arrived := Gather(lines, picks);
    GatherIsPermutation(lines, picks);
    WellFormedPermutation(arrived, lines);
    if !WellFormed(lines) {
      var e := ScanLines(arrived, length).error;
      assert e.line in multiset(lines);
    } else {
      SortTxtUnfold(lines, length, picks, numBuckets, maxLength);
      KeptSamplesFacts(lines, length, picks, maxLength);
    }
  }

  /** The lines written back are the input lines whose length passes the filter, each
      exactly once and unaltered, in some order; `removed` counts the others. */
  lemma SortTxtKeepsShortLines(lines: seq<string>, length: string -> nat, picks: seq<nat>,
                               numBuckets: int, maxLength: int)
    ensures var r := SortTxtBySeqLen(lines, length, picks, numBuckets, maxLength);
            r.Success? ==>
              && multiset(r.value.lines) == multiset(ShortLines(lines, length, maxLength))
              && r.value.removed == |lines| - |ShortLines(lines, length, maxLength)|
              && (maxLength <= 0 ==> multiset(r.value.lines) == multiset(lines))
  {
    if WellFormed(lines) {
      SortTxtUnfold(lines, length, picks, numBuckets, maxLength);
      KeptSamplesFacts(lines, length, picks, maxLength);
    }
  }

  /** Re-measuring the written lines finds them sorted by length and, when filtering is
      on, every one shorter than `maxLength`. */
  lemma SortTxtSortedAndBounded(lines: seq<string>, length: string -> nat, picks: seq<nat>,
                                numBuckets: int, maxLength: int)
    ensures var r := SortTxtBySeqLen(lines, length, picks, numBuckets, maxLength);
            r.Success? ==>
              && WellFormed(r.value.lines)
              && NonDecreasing(LineLengths(r.value.lines, length))
              && (maxLength > 0 ==> forall i :: 0 <= i < |r.value.lines| ==> LineLength(r.value.lines[i], length) < maxLength)
  {
    if WellFormed(lines) {
      SortTxtUnfold(lines, length, picks, numBuckets, maxLength);
      KeptLinesSortedAndBounded(lines, length, picks, maxLength);
    }
  }

  lemma KeptLinesSortedAndBounded(lines: seq<string>, length: string -> nat, picks: seq<nat>, maxLength: int)
    requires WellFormed(lines)
    ensures var out := Render(KeptSamples(lines, length, picks, maxLength));
            && WellFormed(out)
            && NonDecreasing(LineLengths(out, length))
            && (maxLength > 0 ==> forall i :: 0 <= i < |out| ==> LineLength(out[i], length) < maxLength)
  {
    KeptSamplesFacts(lines, length, picks, maxLength);
    var kept := KeptSamples(lines, length, picks, maxLength);
    forall i | 0 <= i < |kept|
      ensures Kept(kept[i], maxLength)
    {
      assert kept[i] in kept;
    }
  }

  /** The reported total is the summed length of exactly the input lines that pass the filter. */
  lemma SortTxtTotalLength(lines: seq<string>, length: string -> nat, picks: seq<nat>,
                           numBuckets: int, maxLength: int)
    ensures var r := SortTxtBySeqLen(lines, length, picks, numBuckets, maxLength);
            r.Success? ==> r.value.totalLength == Sum(LineLengths(ShortLines(lines, length, maxLength), length))
  {
    if WellFormed(lines) {
      SortTxtUnfold(lines, length, picks, numBuckets, maxLength);
      KeptSamplesFacts(lines, length, picks, maxLength);
    }
  }

  /** The suggested boundaries are those of the re-measured lengths of the written lines. */
  lemma SortTxtBoundaries(lines: seq<string>, length: string -> nat, picks: seq<nat>,
                          numBuckets: int, maxLength: int)
    ensures var r := SortTxtBySeqLen(lines, length, picks, numBuckets, maxLength);
            r.Success? ==> BucketBoundaries(LineLengths(r.value.lines, length), numBuckets) == Success(r.value.boundaries)
  {
    if WellFormed(lines) {
      SortTxtUnfold(lines, length, picks, numBuckets, maxLength);
      KeptSamplesFacts(lines, length, picks, maxLength);
    }
  }

  lemma LineLengthsOfPermutation(a: seq<string>, b: seq<string>, length: string -> nat)
    requires multiset(a) == multiset(b)
    ensures multiset(LineLengths(a, length)) == multiset(LineLengths(b, length))
    ensures Sum(LineLengths(a, length)) == Sum(LineLengths(b, length))
  {
    var f := (l: string) => LineLength(l, length);
    MapPreservesPermutation(f, a, b);
    assert LineLengths(a, length) == MapSeq(f, a);
    assert LineLengths(b, length) == MapSeq(f, b);
    SumOfPermutation(LineLengths(a, length), LineLengths(b, length));
  }

  /** The completion order of the pool decides nothing but the order of equally long
      lines: success, the written lines up to order, their length profile, the
      boundaries, the total and the removed count are the same for every order. */
  lemma ArrivalOrderIrrelevant(lines: seq<string>, length: string -> nat, picks: seq<nat>, otherPicks: seq<nat>,
                               numBuckets: int, maxLength: int)
    ensures var r := SortTxtBySeqLen(lines, length, picks, numBuckets, maxLength);
            var o := SortTxtBySeqLen(lines, length, otherPicks, numBuckets, maxLength);
            && (r.Success? <==> o.Success?)
            && (r.Success? ==>
                  && multiset(r.value.lines) == multiset(o.value.lines)
                  && LineLengths(r.value.lines, length) == LineLengths(o.value.lines, length)
                  && r.value.boundaries == o.value.boundaries
                  && r.value.totalLength == o.value.totalLength
                  && r.value.removed == o.value.removed)
  {
    var r := SortTxtBySeqLen(lines, length, picks, numBuckets, maxLength);
    var o := SortTxtBySeqLen(lines, length, otherPicks, numBuckets, maxLength);
    SortTxtFailsExactlyWhen(lines, length, picks, numBuckets, maxLength);
    SortTxtFailsExactlyWhen(lines, length, otherPicks, numBuckets, maxLength);
    if r.Success? {
      SortTxtKeepsShortLines(lines, length, picks, numBuckets, maxLength);
      SortTxtKeepsShortLines(lines, length, otherPicks, numBuckets, maxLength);
      SortTxtSortedAndBounded(lines, length, picks, numBuckets, maxLength);
      SortTxtSortedAndBounded(lines, length, otherPicks, numBuckets, maxLength);
      LineLengthsOfPermutation(r.value.lines, o.value.lines, length);
      SortedPermutationsAreEqual(LineLengths(r.value.lines, length), LineLengths(o.value.lines, length));
      SortTxtBoundaries(lines, length, picks, numBuckets, maxLength);
      SortTxtBoundaries(lines, length, otherPicks, numBuckets, maxLength);
      SortTxtTotalLength(lines, length, picks, numBuckets, maxLength);
      SortTxtTotalLength(lines, length, otherPicks, numBuckets, maxLength);
    }
  }

  lemma {:induction false} ShortLinesWhenAllPass(lines: seq<string>, length: string -> nat, maxLength: int)
    requires maxLength > 0 ==> forall i :: 0 <= i < |lines| ==> LineLength(lines[i], length) < maxLength
    ensures ShortLines(lines, length, maxLength) == lines
  {
    if |lines| > 0 && maxLength > 0 {
      ShortLinesWhenAllPass(lines[1..], length, maxLength);
      assert lines == [lines[0]] + lines[1..];
    }
  }

  /** Sorting an already sorted manifest again, under any completion order, removes
      nothing and reproduces the same lines up to order, the same length profile, the
      same boundaries and the same total. */
  lemma SortTxtIdempotent(lines: seq<string>, length: string -> nat, picks: seq<nat>, againPicks: seq<nat>,
                          numBuckets: int, maxLength: int)
    ensures var r := SortTxtBySeqLen(lines, length, picks, numBuckets, maxLength);
            r.Success? ==>
              var again := SortTxtBySeqLen(r.value.lines, length, againPicks, numBuckets, maxLength);
              && again.Success?
              && again.value.removed == 0
              && multiset(again.value.lines) == multiset(r.value.lines)
              && LineLengths(again.value.lines, length) == LineLengths(r.value.lines, length)
              && again.value.boundaries == r.value.boundaries
              && again.value.totalLength == r.value.totalLength
  {
    var r := SortTxtBySeqLen(lines, length, picks, numBuckets, maxLength);
    if r.Success? {
      var out := r.value.lines;
      SortTxtFailsExactlyWhen(lines, length, picks, numBuckets, maxLength);
      SortTxtKeepsShortLines(lines, length, picks, numBuckets, maxLength);
      SortTxtSortedAndBounded(lines, length, picks, numBuckets, maxLength);
      SortTxtBoundaries(lines, length, picks, numBuckets, maxLength);
      SortTxtTotalLength(lines, length, picks, numBuckets, maxLength);
      ShortLinesWhenAllPass(out, length, maxLength);
      assert |out| == |multiset(out)| == |ShortLines(lines, length, maxLength)|;
      SortTxtFailsExactlyWhen(out, length, againPicks, numBuckets, maxLength);
      var again := SortTxtBySeqLen(out, length, againPicks, numBuckets, maxLength);
      SortTxtKeepsShortLines(out, length, againPicks, numBuckets, maxLength);
      SortTxtSortedAndBounded(out, length, againPicks, numBuckets, maxLength);
      SortTxtBoundaries(out, length, againPicks, numBuckets, maxLength);
      SortTxtTotalLength(out, length, againPicks, numBuckets, maxLength);
      LineLengthsOfPermutation(again.value.lines, out, length);
      SortedPermutationsAreEqual(LineLengths(again.value.lines, length), LineLengths(out, length));
      LineLengthsOfPermutation(out, ShortLines(lines, length, maxLength), length);
    }
  }
}
